=== FILE: README.md ===
# Supported SSG catalogue and audit logger of compliance-backend

This project models two parts of the compliance backend and proves properties of both.

- **The supported SCAP Security Guide (SSG) catalogue** (`SupportedSsg`). It is read from a YAML file whose
  `supported` map sends a RHEL key such as `rhel7.10` to the attributes of the SSG shipped for that RHEL.
  The model covers:
  - `all`, which turns every entry into a `SupportedSsg` record;
  - `os_version`, which takes the major and minor OS version from the end of the key;
  - `map_attributes`, which keeps only the attributes that are struct members;
  - `available_upstream`, which keeps the SSGs whose version is, part by part and under string ordering,
    at least `0.1.24`;
  - `supports?`, which asks whether a version, or an object's version, is among the catalogue's versions;
  - `revision`.

  The parsed YAML document is an input value: the pairs of its top-level mapping, `seq<(string, Yaml.Value)>`, kept
  in order as a Ruby Hash keeps them, each value a `Yaml.Value`. The Ruby behaviour the code relies on is written out:
  - string comparison (`RubyString.Less`, proved lexicographic);
  - `String#split('.')`, which drops trailing empty fields;
  - `zip`, which pads with nil, and comparing a string with nil, which raises `ArgumentError`;
  - `all?`, which stops at the first false;
  - `$` in the version regexp, which matches at the end of any line;
  - keyword splatting, where a later `**attrs` entry wins over an explicit keyword.

  The method calls that fail on a value of the wrong shape are modelled as errors (`NoMethodError`,
  `ArgumentError`). Examples are `.map` on a scalar `supported` value and `.split` on a nil version.

- **The `WrappedLogger` of the audit log library** (`AuditLog`). Its implementation is not part of this model.
  Its contract is the one its test pins down:
  - leveled calls (`debug` … `fatal`, string or block form) and `<<` go to the base logger;
  - `audit(m)` writes one JSON record with level `audit` and the evidence keys to the audit logger;
  - `audit_with_account` sets the calling thread's account, either persistently or for the duration of a block;
  - `reopen` and `close` go to both loggers;
  - a method neither logger knows raises `NameError`.

  The behaviour is given twice. `Step` and `RunAll` are a pure transition function over `LoggerState`, and
  lemmas about them state the tested properties. The class `WrappedLogger` holds the same state in fields that
  its methods update in place, and every method is proved to follow `Step`.

In two places the model follows the code where a reader might expect otherwise:
- `transaction_id` is always a string. The test checks the non-null keys of one record, written outside any request, and
  expects `transaction_id` among them; the model gives every record one.
- An entry's own `id`, `os_major_version` or `os_minor_version` attribute overrides the value derived from
  its key, because `**map_attributes(values)` comes last in the keyword list.

## Model

| member | source | states |
|---|---|---|
| Yaml.Lookup | app/models/supported_ssg.rb:14 | Hash lookup: nil when the key is absent, otherwise the value paired with the first occurrence of the key |
| Yaml.Truthy | app/models/supported_ssg.rb:34-44 | Ruby truthiness behind the `or` fallbacks from `upstream_version` to `version` (line 34) and from `obj.try(:version)` to `obj` (line 44): every value except nil and false |
| RubyString.Less | app/models/supported_ssg.rb:36 | Ruby's String `<`, defined character by character, whose negation is the `>=` of the filter block; `LessIsLexicographic` and `LessTrichotomy` state its order |
| RubyString.LessIsLexicographic | app/models/supported_ssg.rb:36 | Ruby's String `<` holds iff a is a proper prefix of b or differs from b first at a smaller character |
| RubyString.LessTrichotomy | app/models/supported_ssg.rb:36 | string order is total: exactly one of a < b, a == b, b < a |
| RubyString.AtLeast | app/models/supported_ssg.rb:36 | `ver_part >= oldest_part` on Strings: not `Less`, so by `LessTrichotomy` equal or after in the string order |
| RubyString.StringOrderOfVersionParts | app/models/supported_ssg.rb:36 | version parts compare as strings: "3" >= "24" and "100" < "24" |
| RubyString.Fields | app/models/supported_ssg.rb:32 | splitting at a separator gives at least one field, and no field contains the separator |
| RubyString.Join | app/models/supported_ssg.rb:32 | the inverse of splitting: the parts with the separator between them; `JoinFields`, `FieldsJoin` and `SplitJoin` relate the two |
| RubyString.JoinFields | app/models/supported_ssg.rb:32 | joining the fields of s with the separator gives back s |
| RubyString.FieldsJoin | app/models/supported_ssg.rb:32 | splitting the join of separator-free parts gives back the parts |
| RubyString.DropTrailingEmpty | app/models/supported_ssg.rb:32 | the result is a prefix of the input, everything dropped is empty, and the result does not end in an empty field |
| RubyString.Split | app/models/supported_ssg.rb:32 | `split('.')` gives the fields without the trailing empty ones |
| RubyString.SplitIsFieldsWithoutTrailingEmpty | app/models/supported_ssg.rb:32 | `split` drops exactly the trailing empty fields |
| RubyString.SplitJoin | app/models/supported_ssg.rb:32 | `split` inverts join for separator-free parts whose last part is non-empty |
| SupportedSsg.DigitRunEnd | app/models/supported_ssg.rb:56 | the end of the maximal run of ASCII digits starting at i |
| SupportedSsg.AtLineEnd | app/models/supported_ssg.rb:56 | the regexp's `$`: at the end of the string or just before a newline |
| SupportedSsg.MatchAt | app/models/supported_ssg.rb:56 | the regexp `(\d+)\.(\d+)$` tried at one position: greedy digit runs around a dot, then a line end; `MatchAtShape` and `MatchAtVersionSuffix` give its shape |
| SupportedSsg.FirstMatch | app/models/supported_ssg.rb:56 | `scan(...)[0]`: None iff no position matches `(\d+)\.(\d+)$`, otherwise the match at the leftmost matching position |
| SupportedSsg.OsVersion | app/models/supported_ssg.rb:55-57 | `os_version`: the two captures of the first match as strings, both nil without a match; characterised by `OsVersionIsFinalDigitPair` and `OsVersionNilUnlessFinalDigitPair` |
| SupportedSsg.FirstDigitPairIsFinal | app/models/supported_ssg.rb:55-57 | for a key without newlines, a match found by `os_version` is the digit pair that ends the key |
| SupportedSsg.FinalDigitPairIsFirst | app/models/supported_ssg.rb:55-57 | a newline-free key ending in maximal `digits.digits` has that pair as its first match |
| SupportedSsg.OsVersionIsFinalDigitPair | app/models/supported_ssg.rb:55-57 | for a key without newlines, `os_version` gives (major, minor) iff the key ends in `major.minor` with both maximal digit runs |
| SupportedSsg.OsVersionNilUnlessFinalDigitPair | app/models/supported_ssg.rb:55-57 | for a key without newlines, both versions are nil iff the key does not end in `digits.digits` |
| SupportedSsg.OsVersionOfVersionedKey | app/models/supported_ssg.rb:55-57 | `rhel7.10` gives "7" and "10" |
| SupportedSsg.OsVersionOfBareKey | app/models/supported_ssg.rb:55-57 | `rhel8` gives nil and nil |
| SupportedSsg.Slice | app/models/supported_ssg.rb:51 | `values.slice(*keys)`: a key is in the result iff it is one of the keys and present in the values, and its value is the Hash lookup |
| SupportedSsg.MapAttributes | app/models/supported_ssg.rb:50-53 | only struct members are copied, each with its value from the entry; every other key is dropped |
| SupportedSsg.NewSsg | app/models/supported_ssg.rb:17-22 | the `new(id:, os_major_version:, os_minor_version:, **attrs)` call, the splatted attributes coming last; its fields are given by `NewSsgFields` |
| SupportedSsg.Field | app/models/supported_ssg.rb:17-22 | one keyword of the `new` call: the splatted attribute when the entry has it, otherwise the explicit keyword's value |
| SupportedSsg.NewSsgFields | app/models/supported_ssg.rb:6-22 | each struct field of a new record is the entry's attribute when present, otherwise the key (id), the parsed OS versions, or nil |
| SupportedSsg.OnlyMemberKeysMatter | app/models/supported_ssg.rb:50-53 | two entries that agree on every member key build the same record |
| SupportedSsg.Destructure | app/models/supported_ssg.rb:14 | the block parameters `rhel` and `values` for an Array element: an Array is splatted (nil past its end), anything else binds `rhel` alone |
| SupportedSsg.SupportedEntries | app/models/supported_ssg.rb:14 | what `raw_supported['supported'].map` iterates: a Hash's pairs or an Array's destructured elements, in order; any other value has no `map`, as `AllRejectsUnmappableSupported` states |
| SupportedSsg.MakeRecord | app/models/supported_ssg.rb:14-22 | the block of `all` for one entry: `scan` on a non-String key and `slice` on a non-Hash value raise; its error cases are stated by `AllRejectsFirstNonHashEntry` |
| SupportedSsg.All | app/models/supported_ssg.rb:13-23 | `all`: the entries, then one record each or the first error; stated by `BuildAll`, `AllFollowsSupportedMap` and the two rejection lemmas |
| SupportedSsg.AllRejectsUnmappableSupported | app/models/supported_ssg.rb:14 | a missing `supported` entry, or one that is neither a Hash nor an Array, makes `all` raise NoMethodError for `map` |
| SupportedSsg.AllRejectsFirstNonHashEntry | app/models/supported_ssg.rb:14-22 | in a Hash `supported`, the first entry whose values are not a Hash makes `all` raise: ArgumentError for a String or an Array, NoMethodError for `slice` otherwise |
| SupportedSsg.BuildAll | app/models/supported_ssg.rb:14-23 | Ok iff every entry builds, with one record per entry in order; otherwise the error of the first failing entry |
| SupportedSsg.AllFollowsSupportedMap | app/models/supported_ssg.rb:13-23 | `all` on a well-formed map has exactly one record per entry, in order, each the record of that entry |
| SupportedSsg.AllIdsAreKeys | app/models/supported_ssg.rb:17-18 | a record's id is its entry's key unless the entry sets `id` itself |
| SupportedSsg.PartsAtLeast | app/models/supported_ssg.rb:35-37 | `zip(oldest).all?`: true iff each part is >= the oldest part at its position before any comparison with nil; ArgumentError iff a comparison with nil is reached |
| SupportedSsg.OldestParts | app/models/supported_ssg.rb:32 | `'0.1.24'.split('.')` is `["0", "1", "24"]` |
| SupportedSsg.FilterVersion | app/models/supported_ssg.rb:34 | `upstream_version` when truthy, otherwise `version`; stated by `UpstreamVersionTakesPrecedence` and `VersionUsedWithoutUpstream` |
| SupportedSsg.Keep | app/models/supported_ssg.rb:34-37 | the `select` block: a String version is split and compared part-wise with `0.1.24`; an Array version fails at `>=`, any other value has no `split`; stated by `KeepAgainstOldest` and the example lemmas |
| SupportedSsg.KeepAgainstOldest | app/models/supported_ssg.rb:32-37 | the filter compares the split filter version against the split `0.1.24` |
| SupportedSsg.UpstreamVersionTakesPrecedence | app/models/supported_ssg.rb:34 | a truthy (neither nil nor false) upstream_version is the version filtered on, whatever `version` is |
| SupportedSsg.VersionUsedWithoutUpstream | app/models/supported_ssg.rb:34 | version is filtered on when upstream_version is nil or false |
| SupportedSsg.KeepVersionOfParts | app/models/supported_ssg.rb:34-37 | the filter on a version string is the part-wise comparison of its split parts |
| SupportedSsg.KeepsOldestUpstreamVersion | app/models/supported_ssg.rb:32-37 | `0.1.24` itself is kept |
| SupportedSsg.KeepsShortPatchAsString | app/models/supported_ssg.rb:32-37 | `0.1.3` is kept, since "3" >= "24" |
| SupportedSsg.KeepsTwoPartVersion | app/models/supported_ssg.rb:32-37 | `0.2` is kept |
| SupportedSsg.DropsNewerMajorVersion | app/models/supported_ssg.rb:32-37 | `1.0.0` is dropped |
| SupportedSsg.DropsLongPatchAsString | app/models/supported_ssg.rb:32-37 | `0.1.100` is dropped, since "100" < "24" |
| SupportedSsg.DropsBeforeComparingWithNil | app/models/supported_ssg.rb:35-36 | `0.0.1.5` is dropped without an error, because `all?` stops at the second part |
| SupportedSsg.FilterRaisesOnFourthPart | app/models/supported_ssg.rb:35-36 | `0.1.24.1` reaches `"1" >= nil` and raises ArgumentError |
| SupportedSsg.Select | app/models/supported_ssg.rb:33-38 | Ok iff the block succeeds on every record; then the result is a subsequence of the input that holds every kept record as many times as the input does and no other record; otherwise the first error |
| SupportedSsg.AvailableUpstream | app/models/supported_ssg.rb:31-39 | `available_upstream`: `all`, then `select` with the filter block; stated by `AvailableUpstreamIsSelectedAll` |
| SupportedSsg.AvailableUpstreamIsSelectedAll | app/models/supported_ssg.rb:31-39 | `available_upstream` fails iff `all` fails or the filter raises on one of its records; otherwise it is the subsequence of `all` holding each kept record as often as `all` does, and no other |
| SupportedSsg.QueryVersion | app/models/supported_ssg.rb:44 | `obj.try(:version)`, falling back to `obj`: a truthy version of an object, the bare value itself, or the object (equal to no YAML value) |
| SupportedSsg.IncludesVersion | app/models/supported_ssg.rb:45 | `map(&:version).include?(v)` is true iff some record's version equals v |
| SupportedSsg.Supports | app/models/supported_ssg.rb:43-46 | `supports?`: the query's version looked up among the versions of `all`; stated by `SupportsIffSomeVersion` |
| SupportedSsg.SupportsIffSomeVersion | app/models/supported_ssg.rb:43-46 | `supports?` fails iff `all` fails; otherwise it is true iff the object's truthy version, or the bare value, equals the version of some record of `all` (an object whose version is nil or false matches nothing); upstream_version is not consulted |
| SupportedSsg.Revision | app/models/supported_ssg.rb:26-28 | the `revision` entry of the document, nil when absent |
| AuditLog.Fields | test/lib/audit_log/wrapped_logger_test.rb:37-46 | the JSON object of a record, with keys `@timestamp` … `message` and `account_number`, the last null without an account; its keys are stated by `RecordKeys` |
| AuditLog.CompactKeys | test/lib/audit_log/wrapped_logger_test.rb:37 | the keys of `JSON.parse(line).compact`: those whose value is not null; stated for records by `RecordKeys` |
| AuditLog.NewRecord | test/lib/audit_log/wrapped_logger_test.rb:19-30 | the record `audit(m)` writes: the evidence, the thread, level `audit`, message m and the thread's account; stated by `AuditAppendsOneRecord` |
| AuditLog.Step | test/lib/audit_log/wrapped_logger_test.rb:19-108 | one call to the wrapper: where each kind of call writes, how it changes the accounts, and NameError for an unknown name; its properties are the lemmas below |
| AuditLog.RunAll | test/lib/audit_log/wrapped_logger_test.rb:91-108 | a sequence of calls run in order until the first NameError; stated by `NeutralRunTagsRecords`, `RunAllKeepsOtherAccounts` and the scenario lemma |
| AuditLog.RecordKeys | test/lib/audit_log/wrapped_logger_test.rb:32-47 | a record without an account has exactly the non-null keys `@timestamp, hostname, pid, thread_id, level, transaction_id, message`; with an account, `account_number` as well |
| AuditLog.AuditAppendsOneRecord | test/lib/audit_log/wrapped_logger_test.rb:19-30 | `audit(m)` appends exactly one record, with message m and level `audit`, and leaves the base logger and accounts alone |
| AuditLog.LeveledCallsGoToBase | test/lib/audit_log/wrapped_logger_test.rb:49-64 | every leveled call appends its text to the base output and nothing to the audit output |
| AuditLog.BlockFormLogsProducedText | test/lib/audit_log/wrapped_logger_test.rb:51 | the block form logs the text the block produces |
| AuditLog.AppendGoesToBase | test/lib/audit_log/wrapped_logger_test.rb:78-83 | `<<` appends the raw text to the base output only |
| AuditLog.ReopenAndCloseReachBothLoggers | test/lib/audit_log/wrapped_logger_test.rb:66-76 | `reopen` and `close` each reach both loggers once and change no output |
| AuditLog.UnknownMethodRaisesNameError | test/lib/audit_log/wrapped_logger_test.rb:85-89 | an unknown method fails with NameError and changes nothing |
| AuditLog.PersistentAccountTagsNextAudit | test/lib/audit_log/wrapped_logger_test.rb:93-95 | after `audit_with_account(a)`, the next audit record carries account a |
| AuditLog.NeutralRunTagsRecords | test/lib/audit_log/wrapped_logger_test.rb:93-104 | calls that do not set an account keep it, and every record they write carries it |
| AuditLog.ScopedAuditsCarryAccount | test/lib/audit_log/wrapped_logger_test.rb:97-100 | for a body that neither sets nor scopes an account, every record written inside `audit_with_account(a) { ... }` carries account a |
| AuditLog.ScopedAccountIsRestored | test/lib/audit_log/wrapped_logger_test.rb:97-100 | design choice: after a scoped block the thread's previous account is back in force |
| AuditLog.StepKeepsOtherAccounts | test/lib/audit_log/wrapped_logger_test.rb:91-108 | a call made by one thread leaves every other thread's account unchanged |
| AuditLog.RunAllKeepsOtherAccounts | test/lib/audit_log/wrapped_logger_test.rb:91-108 | so does any sequence of calls, nested blocks included |
| AuditLog.ThreadsDoNotShareAccounts | test/lib/audit_log/wrapped_logger_test.rb:91-108 | whatever call another thread makes between a thread's `audit_with_account(a)` and its next `audit`, that record still carries a |
| AuditLog.SettingAccountNumberScenario | test/lib/audit_log/wrapped_logger_test.rb:91-108 | the test's sequence writes three records tagged "1", "2" and no account, and ends with no account set |
| AuditLog.WrappedLogger.constructor | test/lib/audit_log/wrapped_logger_test.rb:7-17 | a new wrapper has empty outputs and untouched loggers, and keeps the accounts the threads already have |
| AuditLog.WrappedLogger.Log | test/lib/audit_log/wrapped_logger_test.rb:49-64 | appends the leveled entry to the base output; nothing else changes |
| AuditLog.WrappedLogger.Append | test/lib/audit_log/wrapped_logger_test.rb:78-83 | appends the raw text to the base output; nothing else changes |
| AuditLog.WrappedLogger.Audit | test/lib/audit_log/wrapped_logger_test.rb:19-47 | appends one record tagged with the calling thread's account; nothing else changes |
| AuditLog.WrappedLogger.AuditWithAccount | test/lib/audit_log/wrapped_logger_test.rb:93-102 | sets the calling thread's account; nothing else changes |
| AuditLog.WrappedLogger.AuditWithAccountScoped | test/lib/audit_log/wrapped_logger_test.rb:97-100 | runs the block with the account set and ends in the state `Step` gives |
| AuditLog.WrappedLogger.Reopen | test/lib/audit_log/wrapped_logger_test.rb:66-70 | reopens both loggers once each; outputs and accounts are unchanged |
| AuditLog.WrappedLogger.Close | test/lib/audit_log/wrapped_logger_test.rb:72-76 | closes both loggers once each; outputs and accounts are unchanged |
| AuditLog.WrappedLogger.MethodMissing | test/lib/audit_log/wrapped_logger_test.rb:85-89 | raises NameError for the name and changes nothing |
| AuditLog.WrappedLogger.Exec | test/lib/audit_log/wrapped_logger_test.rb:19-108 | a call changes the fields and returns the outcome exactly as `Step` prescribes |
| AuditLog.WrappedLogger.ExecAll | test/lib/audit_log/wrapped_logger_test.rb:91-108 | a sequence of calls changes the fields and returns the outcome exactly as `RunAll` prescribes |

## Left out

- Loading the YAML file, the `@raw_supported` memoisation and the `Rails.root` path are I/O and a process cache. The parsed document is a parameter.
- YAML scalars other than nil, booleans, integers and strings (floats, dates, symbols) are left out, and so are non-string mapping keys. `os_version` and the filter only act on strings, and any other key takes the `NoMethodError` path.
- Duplicate keys in a YAML mapping are left out: the model assumes distinct keys. The YAML loader keeps the last value of a repeated key, while `Yaml.Lookup` takes the first, so the two differ only on such documents.
- A document that is not a Hash (empty, or a list at the top) is left out: the document is typed as a mapping, so the error `raw_supported['supported']` raises on it is not modelled.
- `supports?` compares versions with structural equality on `Yaml.Value`, so a Hash-valued `version` compares in key order, while Ruby's `Hash#==` ignores order. Only a Hash-valued version is affected.
- `supports?` on an object without a `version` method is the `Bare` case of the `Query` sum type. Ruby's `try` reflection is not modelled.
- `SupportedSsg.OsVersionIsFinalDigitPair`, `SupportedSsg.OsVersionNilUnlessFinalDigitPair` and `SupportedSsg.FinalDigitPairIsFirst`: stated only for keys without a newline (`"1.2\nrhel8"` gives "1" and "2"). Ruby's `$` also matches before a newline, which `FirstMatch` models, but the clean characterisation does not cover it.
- The base logger's other methods (`level=`, `add`, `progname`, …) are not modelled. `Unknown` stands for a name that neither logger defines.
- Ruby `Logger` line formatting, severity filtering and the exact JSON byte layout are left out. Base entries are `(severity, text)` pairs and audit records are a datatype.
- A null `transaction_id`, as a record written outside a request might carry, cannot be represented: `Evidence.transactionId` is a string.
- The clock, hostname, pid, thread id and transaction id are opaque inputs (`Evidence` and the thread id), not read from the system.
- Real thread-local storage and concurrency are left out. Accounts live in a map keyed by thread id, and calls run one at a time. Because a thread's account outlives any one wrapper, the constructor takes the threads' current accounts instead of starting from none.
- Sink failures on write, reopen or close are left out, and so is the value a scoped block returns.
- `AuditLog.ScopedAccountIsRestored`: restoring the previous account when a scoped block exits is a design choice. The test never looks at the account after the block returns.
- `app/graphql/schema.rb`, `app/serializers/host_serializer.rb` and `config/initializers/yabeda.rb` are framework wiring, serializer declarations and metrics plumbing, with no logic to model.

=== FILE: audit_log.dfy ===
/** The audit-logging `WrappedLogger`: a drop-in replacement for the
    application logger that forwards ordinary logging to a base logger and
    writes structured audit records to a second, audit logger. The account an
    audit record is made on behalf of is kept per calling thread.

    The behaviour is first given as a pure state-transition function
    (`Step`, `RunAll`) whose properties are proved as lemmas; the class
    `WrappedLogger` then updates its fields in place and is proved to follow
    that function. */
module AuditLog {
  import opened Wrappers

  type ThreadId = nat

  /** The environmental evidence captured when a record is emitted (clock,
      host, process, request correlation), supplied by the caller. */
  datatype Evidence = Evidence(timestamp: string, hostname: string, pid: int, transactionId: string)

  const AuditLevel: string := "audit"

  /** One audit record, as one JSON line of the audit log. */
  datatype AuditRecord = AuditRecord(
    timestamp: string,
    hostname: string,
    pid: int,
    threadId: ThreadId,
    level: string,
    transactionId: string,
    message: string,
    accountNumber: Option<string>)

  datatype Json = JNull | JString(s: string) | JNumber(n: int)

  /** The JSON object of a record: its keys and values, in order. */
  function Fields(r: AuditRecord): seq<(string, Json)>
  {
    [("@timestamp", JString(r.timestamp)),
     ("hostname", JString(r.hostname)),
     ("pid", JNumber(r.pid)),
     ("thread_id", JNumber(r.threadId)),
     ("level", JString(r.level)),
     ("transaction_id", JString(r.transactionId)),
     ("message", JString(r.message)),
     ("account_number", match r.accountNumber case Some(a) => JString(a) case None => JNull)]
  }

  function Keys(fields: seq<(string, Json)>): set<string>
  {
    set i | 0 <= i < |fields| :: fields[i].0
  }

  /** The keys left after `JSON.parse(line).compact`, which drops nulls. */
  function CompactKeys(fields: seq<(string, Json)>): set<string>
  {
    set i | 0 <= i < |fields| && !fields[i].1.JNull? :: fields[i].0
  }

  const EvidenceKeys: set<string> :=
    {"@timestamp", "hostname", "pid", "thread_id", "level", "transaction_id", "message"}

  /** Every record carries exactly the eight keys; with no account set, the
      non-null ones are exactly the seven evidence keys, and with an account
      `account_number` is added. */
  lemma RecordKeys(r: AuditRecord)
    ensures Keys(Fields(r)) == EvidenceKeys + {"account_number"}
    ensures r.accountNumber.None? ==> CompactKeys(Fields(r)) == EvidenceKeys
    ensures r.accountNumber.Some? ==> CompactKeys(Fields(r)) == EvidenceKeys + {"account_number"}
  {
    var f := Fields(r);
    assert f[0].0 == "@timestamp" && f[1].0 == "hostname" && f[2].0 == "pid" && f[3].0 == "thread_id";
    assert f[4].0 == "level" && f[5].0 == "transaction_id" && f[6].0 == "message" && f[7].0 == "account_number";
  }

  /** Base logger severities. */
  datatype Severity = Debug | Info | Warn | Error | Fatal

  /** A leveled call's argument: a string, or a block producing one. */
  datatype Message = Text(text: string) | Block(producer: () -> string)

  function Render(m: Message): string
  {
    match m
    case Text(t) => t
    case Block(f) => f()
  }

  /** What the base logger writes: a leveled entry or a raw `<<` append. */
  datatype BaseEntry = Logged(severity: Severity, text: string) | Raw(text: string)

  /** A logger's output and how often it was reopened and closed. */
  datatype Sink<T> = Sink(output: seq<T>, reopens: nat, closes: nat)

  datatype LoggerState = LoggerState(
    base: Sink<BaseEntry>,
    audit: Sink<AuditRecord>,
    accounts: map<ThreadId, Option<string>>)

  /** A call on the wrapped logger, made by one thread. */
  datatype Call =
    | Log(severity: Severity, entry: Message)        // debug/info/warn/error/fatal
    | Append(text: string)                           // <<
    | Audit(message: string, evidence: Evidence)     // audit(msg)
    | SetAccount(account: Option<string>)            // audit_with_account(id)
    | WithAccount(account: Option<string>, body: seq<Call>)  // audit_with_account(id) { body }
    | Reopen
    | Close
    | Unknown(name: string)  // a method neither logger defines

  /** `NameError`: raised for a method that neither logger defines. */
  datatype NameError = NameError(name: string)

  /** The thread's current account: nil unless set. */
  function AccountOf(accounts: map<ThreadId, Option<string>>, tid: ThreadId): Option<string>
  {
    if tid in accounts then accounts[tid] else None
  }

  function NewRecord(ev: Evidence, tid: ThreadId, message: string, account: Option<string>): AuditRecord
  {
    AuditRecord(ev.timestamp, ev.hostname, ev.pid, tid, AuditLevel, ev.transactionId, message, account)
  }

  function Size(c: Call): (n: nat)
    ensures n >= 1
  {
    match c
    case WithAccount(_, body) => 1 + SizeAll(body)
    case _ => 1
  }

  function SizeAll(cs: seq<Call>): nat
  {
    if cs == [] then 0 else Size(cs[0]) + SizeAll(cs[1..])
  }

  const Initial: LoggerState := LoggerState(Sink([], 0, 0), Sink([], 0, 0), map[])

  /** The effect of one call by thread `tid`, and whether it raised. */
  function Step(s: LoggerState, tid: ThreadId, c: Call): (LoggerState, Outcome<NameError>)
    decreases Size(c), 0
  {
    match c
    case Log(severity, message) =>
      (s.(base := s.base.(output := s.base.output + [Logged(severity, Render(message))])), Pass)
    case Append(text) =>
      (s.(base := s.base.(output := s.base.output + [Raw(text)])), Pass)
    case Audit(message, ev) =>
      var r := NewRecord(ev, tid, message, AccountOf(s.accounts, tid));
      (s.(audit := s.audit.(output := s.audit.output + [r])), Pass)
    case SetAccount(account) =>
      (s.(accounts := s.accounts[tid := account]), Pass)
    case WithAccount(account, body) =>
      var (inner, outcome) := RunAll(s.(accounts := s.accounts[tid := account]), tid, body);
      (inner.(accounts := inner.accounts[tid := AccountOf(s.accounts, tid)]), outcome)
    case Reopen =>
      (s.(base := s.base.(reopens := s.base.reopens + 1), audit := s.audit.(reopens := s.audit.reopens + 1)), Pass)
    case Close =>
      (s.(base := s.base.(closes := s.base.closes + 1), audit := s.audit.(closes := s.audit.closes + 1)), Pass)
    case Unknown(name) =>
      (s, Fail(NameError(name)))
  }

  /** A sequence of calls by thread `tid`, stopping at the first that raises. */
  function RunAll(s: LoggerState, tid: ThreadId, cs: seq<Call>): (LoggerState, Outcome<NameError>)
    decreases SizeAll(cs), 1
  {
    if cs == [] then (s, Pass)
    else
      var (s1, outcome) := Step(s, tid, cs[0]);
      if outcome.Fail? then (s1, outcome) else RunAll(s1, tid, cs[1..])
  }

  /** Unfolds `RunAll` by one call that does not raise. */
  lemma RunAllFirst(s: LoggerState, tid: ThreadId, cs: seq<Call>)
    requires cs != [] && Step(s, tid, cs[0]).1 == Pass
    ensures RunAll(s, tid, cs) == RunAll(Step(s, tid, cs[0]).0, tid, cs[1..])
  {
  }

  // ---------------------------------------------------------------------
  // Properties of single calls
  // ---------------------------------------------------------------------

  /** `audit(m)` appends exactly one record, with message `m`, level
      "audit", the caller's thread and the caller's current account, and
      touches nothing else. */
  lemma AuditAppendsOneRecord(s: LoggerState, tid: ThreadId, m: string, ev: Evidence)
    ensures var (s', outcome) := Step(s, tid, Audit(m, ev));
      && outcome == Pass
      && s'.base == s.base && s'.accounts == s.accounts
      && s'.audit.reopens == s.audit.reopens && s'.audit.closes == s.audit.closes
      && |s'.audit.output| == |s.audit.output| + 1
      && s'.audit.output[..|s.audit.output|] == s.audit.output
      && var r := s'.audit.output[|s.audit.output|];
        && r.message == m && r.level == "audit" && r.threadId == tid
        && r.accountNumber == AccountOf(s.accounts, tid)
        && r.timestamp == ev.timestamp && r.hostname == ev.hostname
        && r.pid == ev.pid && r.transactionId == ev.transactionId
  {
  }

  /** Leveled calls, in either argument form, go to the base logger's output
      and never to the audit logger. */
  lemma LeveledCallsGoToBase(s: LoggerState, tid: ThreadId, severity: Severity, m: Message)
    ensures var (s', outcome) := Step(s, tid, Log(severity, m));
      && outcome == Pass
      && s'.base.output == s.base.output + [Logged(severity, Render(m))]
      && s'.audit == s.audit && s'.accounts == s.accounts
  {
  }

  /** The block form logs what the block produces. */
  lemma BlockFormLogsProducedText(s: LoggerState, tid: ThreadId, severity: Severity, text: string)
    ensures Step(s, tid, Log(severity, Block(() => text))).0.base.output ==
      s.base.output + [Logged(severity, text)]
  {
  }

  /** `<<` appends raw text to the base logger's output only. */
  lemma AppendGoesToBase(s: LoggerState, tid: ThreadId, text: string)
    ensures var (s', outcome) := Step(s, tid, Append(text));
      && outcome == Pass
      && s'.base.output == s.base.output + [Raw(text)]
      && s'.audit == s.audit && s'.accounts == s.accounts
  {
  }

  /** `reopen` and `close` are each forwarded once to both loggers. */
  lemma ReopenAndCloseReachBothLoggers(s: LoggerState, tid: ThreadId)
    ensures var (s', outcome) := Step(s, tid, Reopen);
      && outcome == Pass
      && s'.base.reopens == s.base.reopens + 1 && s'.audit.reopens == s.audit.reopens + 1
      && s'.base.output == s.base.output && s'.audit.output == s.audit.output
      && s'.base.closes == s.base.closes && s'.audit.closes == s.audit.closes
    ensures var (s', outcome) := Step(s, tid, Close);
      && outcome == Pass
      && s'.base.closes == s.base.closes + 1 && s'.audit.closes == s.audit.closes + 1
      && s'.base.output == s.base.output && s'.audit.output == s.audit.output
      && s'.base.reopens == s.base.reopens && s'.audit.reopens == s.audit.reopens
  {
  }

  /** A method neither logger defines raises `NameError`; it is not a silent
      no-op that reports success. */
  lemma UnknownMethodRaisesNameError(s: LoggerState, tid: ThreadId, name: string)
    ensures Step(s, tid, Unknown(name)) == (s, Fail(NameError(name)))
  {
  }

  // ---------------------------------------------------------------------
  // Accounts
  // ---------------------------------------------------------------------

  /** After `audit_with_account(a)`, the next audit record carries `a`. */
  lemma PersistentAccountTagsNextAudit(s: LoggerState, tid: ThreadId, a: Option<string>, m: string, ev: Evidence)
    ensures var (s', outcome) := RunAll(s, tid, [SetAccount(a), Audit(m, ev)]);
      && outcome == Pass
      && |s'.audit.output| == |s.audit.output| + 1
      && s'.audit.output[|s.audit.output|].accountNumber == a
  {
    var cs := [SetAccount(a), Audit(m, ev)];
    RunAllFirst(s, tid, cs);
    assert cs[1..] == [Audit(m, ev)];
    RunAllFirst(Step(s, tid, SetAccount(a)).0, tid, cs[1..]);
    assert cs[1..][1..] == [];
  }

  /** Calls that neither set nor scope an account. */
  predicate AccountNeutral(c: Call)
  {
    !c.SetAccount? && !c.WithAccount?
  }

  /** A run of account-neutral calls leaves the accounts alone, only appends
      to the audit output, and tags every record it appends with the calling
      thread and that thread's current account. */
  lemma {:induction false} NeutralRunTagsRecords(s: LoggerState, tid: ThreadId, cs: seq<Call>)
    requires forall i :: 0 <= i < |cs| ==> AccountNeutral(cs[i])
    ensures var s' := RunAll(s, tid, cs).0;
      && s'.accounts == s.accounts
      && |s'.audit.output| >= |s.audit.output|
      && s'.audit.output[..|s.audit.output|] == s.audit.output
      && forall j :: |s.audit.output| <= j < |s'.audit.output| ==>
           s'.audit.output[j].accountNumber == AccountOf(s.accounts, tid) &&
           s'.audit.output[j].threadId == tid
    decreases |cs|
  {
    if cs != [] {
      var (s1, outcome) := Step(s, tid, cs[0]);
      assert s1.accounts == s.accounts;
      assert |s1.audit.output| >= |s.audit.output| && s1.audit.output[..|s.audit.output|] == s.audit.output;
      assert forall j :: |s.audit.output| <= j < |s1.audit.output| ==>
        s1.audit.output[j].accountNumber == AccountOf(s.accounts, tid) && s1.audit.output[j].threadId == tid;
      if outcome.Pass? {
        NeutralRunTagsRecords(s1, tid, cs[1..]);
        var s' := RunAll(s1, tid, cs[1..]).0;
        assert s'.audit.output[..|s1.audit.output|] == s1.audit.output;
        assert s'.audit.output[..|s.audit.output|] == s1.audit.output[..|s.audit.output|];
      }
    }
  }

  /** Inside `audit_with_account(a) { body }`, every record the body's audit
      calls write carries `a`. */
  lemma ScopedAuditsCarryAccount(s: LoggerState, tid: ThreadId, a: Option<string>, body: seq<Call>)
    requires forall i :: 0 <= i < |body| ==> AccountNeutral(body[i])
    ensures var s' := Step(s, tid, WithAccount(a, body)).0;
      && |s'.audit.output| >= |s.audit.output|
      && s'.audit.output[..|s.audit.output|] == s.audit.output
      && forall j :: |s.audit.output| <= j < |s'.audit.output| ==> s'.audit.output[j].accountNumber == a
  {
    var inner := s.(accounts := s.accounts[tid := a]);
    NeutralRunTagsRecords(inner, tid, body);
  }

  /** Design choice, not pinned by the wrapper's test: when the scoped form
      returns, normally or by raising, the thread's previous account is
      restored. */
  lemma ScopedAccountIsRestored(s: LoggerState, tid: ThreadId, a: Option<string>, body: seq<Call>)
    ensures AccountOf(Step(s, tid, WithAccount(a, body)).0.accounts, tid) == AccountOf(s.accounts, tid)
  {
  }

  /** A call by one thread never changes another thread's account, however
      the calls it makes are nested. */
  lemma {:induction false} StepKeepsOtherAccounts(s: LoggerState, tid: ThreadId, c: Call, other: ThreadId)
    requires other != tid
    ensures AccountOf(Step(s, tid, c).0.accounts, other) == AccountOf(s.accounts, other)
    decreases Size(c), 0
  {
    match c
    case WithAccount(a, body) =>
      var inner := s.(accounts := s.accounts[tid := a]);
      RunAllKeepsOtherAccounts(inner, tid, body, other);
    case _ =>
  }

  lemma {:induction false} RunAllKeepsOtherAccounts(s: LoggerState, tid: ThreadId, cs: seq<Call>, other: ThreadId)
    requires other != tid
    ensures AccountOf(RunAll(s, tid, cs).0.accounts, other) == AccountOf(s.accounts, other)
    decreases SizeAll(cs), 1
  {
    if cs != [] {
      StepKeepsOtherAccounts(s, tid, cs[0], other);
      var (s1, outcome) := Step(s, tid, cs[0]);
      if outcome.Pass? {
        RunAllKeepsOtherAccounts(s1, tid, cs[1..], other);
      }
    }
  }

  /** Two threads sharing one logger: whatever thread `other` does between
      thread `tid` setting its account and auditing, `tid`'s record carries
      the account `tid` set. */
  lemma ThreadsDoNotShareAccounts(s: LoggerState, tid: ThreadId, other: ThreadId, a: Option<string>,
                                  c: Call, m: string, ev: Evidence)
    requires other != tid
    ensures var s1 := Step(s, tid, SetAccount(a)).0;
      var s2 := Step(s1, other, c).0;
      var s3 := Step(s2, tid, Audit(m, ev)).0;
      s3.audit.output[|s3.audit.output| - 1].accountNumber == a
  {
    var s1 := Step(s, tid, SetAccount(a)).0;
    StepKeepsOtherAccounts(s1, other, c, tid);
  }

  /** The "setting account number" scenario: a persistent account, then a
      scoped one, then clearing it with nil; the three audit records carry
      "1", "2" and no account, the last one has exactly the seven evidence
      keys, and the thread is left with no account. */
  lemma SettingAccountNumberScenario(s: LoggerState, tid: ThreadId, m: string, e1: Evidence, e2: Evidence, e3: Evidence)
    ensures var (s', outcome) := RunAll(s, tid,
      [SetAccount(Some("1")), Audit(m, e1), WithAccount(Some("2"), [Audit(m, e2)]), SetAccount(None), Audit(m, e3)]);
      var n := |s.audit.output|;
      && outcome == Pass
      && |s'.audit.output| == n + 3
      && s'.audit.output[n].accountNumber == Some("1")
      && s'.audit.output[n + 1].accountNumber == Some("2")
      && s'.audit.output[n + 2].accountNumber == None
      && CompactKeys(Fields(s'.audit.output[n + 2])) == EvidenceKeys
      && AccountOf(s'.accounts, tid) == None
  {
    var calls := [SetAccount(Some("1")), Audit(m, e1), WithAccount(Some("2"), [Audit(m, e2)]), SetAccount(None), Audit(m, e3)];
    var inner := [Audit(m, e2)];
    assert inner[1..] == [];
    var s1 := Step(s, tid, calls[0]).0;
    var s2 := Step(s1, tid, calls[1]).0;
    var s3in := s2.(accounts := s2.accounts[tid := Some("2")]);
    RunAllFirst(s3in, tid, inner);
    var s3 := Step(s2, tid, calls[2]).0;
    assert Step(s2, tid, calls[2]).1 == Pass;
    var s4 := Step(s3, tid, calls[3]).0;
    var s5 := Step(s4, tid, calls[4]).0;
    RunAllFirst(s, tid, calls);
    assert calls[1..][1..] == calls[2..];
    RunAllFirst(s1, tid, calls[1..]);
    assert calls[2..][1..] == calls[3..];
    RunAllFirst(s2, tid, calls[2..]);
    assert calls[3..][1..] == calls[4..];
    RunAllFirst(s3, tid, calls[3..]);
    assert calls[4..][1..] == [];
    RunAllFirst(s4, tid, calls[4..]);
    assert RunAll(s, tid, calls) == (s5, Pass);
    RecordKeys(s5.audit.output[|s.audit.output| + 2]);
  }

  // ---------------------------------------------------------------------
  // The wrapper object
  // ---------------------------------------------------------------------

  /** `WrappedLogger.new(base_logger, audit_logger)`: the two loggers are
      represented by their outputs and lifecycle counters; the per-thread
      account store is the map `accounts`. */
  class WrappedLogger {
    var baseOutput: seq<BaseEntry>
    var baseReopens: nat
    var baseCloses: nat
    var auditOutput: seq<AuditRecord>
    var auditReopens: nat
    var auditCloses: nat
    var accounts: map<ThreadId, Option<string>>

    function State(): LoggerState
      reads this
    {
      LoggerState(
        Sink(baseOutput, baseReopens, baseCloses),
        Sink(auditOutput, auditReopens, auditCloses),
        accounts)
    }

    /** The account of a thread belongs to the thread, not to the wrapper,
        so a new wrapper starts from the accounts the threads already have;
        its loggers start with empty outputs and untouched counters. */
    constructor (threadAccounts: map<ThreadId, Option<string>>)
      ensures State() == Initial.(accounts := threadAccounts)
    {
      baseOutput, baseReopens, baseCloses := [], 0, 0;
      auditOutput, auditReopens, auditCloses := [], 0, 0;
      accounts := threadAccounts;
    }

    /** `debug`/`info`/`warn`/`error`/`fatal`, with a string or a block:
        forwarded to the base logger. */
    method Log(severity: Severity, message: Message)
      modifies this
      ensures baseOutput == old(baseOutput) + [Logged(severity, Render(message))]
      ensures State().audit == old(State().audit) && accounts == old(accounts)
      ensures baseReopens == old(baseReopens) && baseCloses == old(baseCloses)
    {
      baseOutput := baseOutput + [Logged(severity, Render(message))];
    }

    /** `<<`: forwarded to the base logger. */
    method Append(text: string)
      modifies this
      ensures baseOutput == old(baseOutput) + [Raw(text)]
      ensures State().audit == old(State().audit) && accounts == old(accounts)
      ensures baseReopens == old(baseReopens) && baseCloses == old(baseCloses)
    {
      baseOutput := baseOutput + [Raw(text)];
    }

    /** `audit(message)` called by thread `tid`: one record on the audit
        logger, tagged with the thread's current account. */
    method Audit(tid: ThreadId, ev: Evidence, message: string)
      modifies this
      ensures auditOutput == old(auditOutput) + [NewRecord(ev, tid, message, AccountOf(old(accounts), tid))]
      ensures State().base == old(State().base) && accounts == old(accounts)
      ensures auditReopens == old(auditReopens) && auditCloses == old(auditCloses)
    {
      auditOutput := auditOutput + [NewRecord(ev, tid, message, AccountOf(accounts, tid))];
    }

    /** `audit_with_account(account)` without a block: sets the calling
        thread's account until it is changed again. */
    method AuditWithAccount(tid: ThreadId, account: Option<string>)
      modifies this
      ensures accounts == old(accounts)[tid := account]
      ensures State().base == old(State().base) && State().audit == old(State().audit)
    {
      accounts := accounts[tid := account];
    }

    /** `reopen`: sent to both loggers. */
    method Reopen()
      modifies this
      ensures baseReopens == old(baseReopens) + 1 && auditReopens == old(auditReopens) + 1
      ensures baseOutput == old(baseOutput) && auditOutput == old(auditOutput)
      ensures baseCloses == old(baseCloses) && auditCloses == old(auditCloses)
      ensures accounts == old(accounts)
    {
      baseReopens := baseReopens + 1;
      auditReopens := auditReopens + 1;
    }

    /** `close`: sent to both loggers. */
    method Close()
      modifies this
      ensures baseCloses == old(baseCloses) + 1 && auditCloses == old(auditCloses) + 1
      ensures baseOutput == old(baseOutput) && auditOutput == old(auditOutput)
      ensures baseReopens == old(baseReopens) && auditReopens == old(auditReopens)
      ensures accounts == old(accounts)
    {
      baseCloses := baseCloses + 1;
      auditCloses := auditCloses + 1;
    }

    /** `method_missing` for a name the base logger does not define either:
        raises `NameError` and changes nothing. */
    method MethodMissing(name: string) returns (outcome: Outcome<NameError>)
      ensures outcome == Fail(NameError(name))
    {
      outcome := Fail(NameError(name));
    }

    /** `audit_with_account(account) { body }` called by thread `tid`: runs
        the body with the thread's account set, then restores the previous
        account whether or not the body raised. */
    method AuditWithAccountScoped(tid: ThreadId, account: Option<string>, body: seq<Call>)
      returns (outcome: Outcome<NameError>)
      modifies this
      ensures (State(), outcome) == Step(old(State()), tid, WithAccount(account, body))
      decreases SizeAll(body), 2
    {
      var previous := AccountOf(accounts, tid);
      accounts := accounts[tid := account];
      outcome := ExecAll(tid, body);
      accounts := accounts[tid := previous];
    }

    /** One call by thread `tid`, dispatched to the operation it names. */
    method Exec(tid: ThreadId, c: Call) returns (outcome: Outcome<NameError>)
      modifies this
      ensures (State(), outcome) == Step(old(State()), tid, c)
      decreases Size(c), 0
    {
      outcome := Pass;
      match c
      case Log(severity, message) => Log(severity, message);
      case Append(text) => Append(text);
      case Audit(message, ev) => Audit(tid, ev, message);
      case SetAccount(account) => AuditWithAccount(tid, account);
      case WithAccount(account, body) => outcome := AuditWithAccountScoped(tid, account, body);
      case Reopen => Reopen();
      case Close => Close();
      case Unknown(name) => outcome := MethodMissing(name);
    }

    /** The calls of a block, in order, until one raises. */
    method ExecAll(tid: ThreadId, cs: seq<Call>) returns (outcome: Outcome<NameError>)
      modifies this
      ensures (State(), outcome) == RunAll(old(State()), tid, cs)
      decreases SizeAll(cs), 1
    {
      if cs == [] {
        return Pass;
      }
      outcome := Exec(tid, cs[0]);
      if outcome.Pass? {
        outcome := ExecAll(tid, cs[1..]);
      }
    }
  }
}

=== FILE: ruby_string.dfy ===
/** The Ruby String operations the supported-SSG catalogue relies on:
    the ordering behind `>=`, `split` on a one-character separator, and the
    ASCII digit class `\d`. Strings are sequences of Unicode scalar values;
    comparing them lexicographically agrees with Ruby's bytewise comparison
    of their UTF-8 encodings. */
module RubyString {

  /** Ruby's `\d`: ASCII digits only. */
  predicate IsDigit(c: char)
  {
    '0' <= c <= '9'
  }

  predicate AllDigits(s: string)
  {
    forall i :: 0 <= i < |s| ==> IsDigit(s[i])
  }

  /** `a < b` on Ruby strings: lexicographic, a proper prefix being smaller. */
  predicate Less(a: string, b: string)
    decreases |a|
  {
    if a == [] then b != []
    else if b == [] then false
    else if a[0] != b[0] then a[0] < b[0]
    else Less(a[1..], b[1..])
  }

  /** `a >= b` on Ruby strings. */
  predicate AtLeast(a: string, b: string)
  {
    !Less(a, b)
  }

  /** The textbook definition of lexicographic order: `a` is a proper prefix
      of `b`, or the two first differ at a position where `a` is smaller. */
  ghost predicate LexicographicallyBefore(a: string, b: string)
  {
    (|a| < |b| && a == b[..|a|]) ||
    exists k :: 0 <= k < |a| && k < |b| && a[..k] == b[..k] && a[k] < b[k]
  }

  lemma {:induction false} LessIsLexicographic(a: string, b: string)
    ensures Less(a, b) <==> LexicographicallyBefore(a, b)
    decreases |a|
  {
    if a == [] || b == [] {
    } else if a[0] != b[0] {
      if a[0] < b[0] {
        assert a[..0] == b[..0];
      }
    } else {
      LessIsLexicographic(a[1..], b[1..]);
      if LexicographicallyBefore(a[1..], b[1..]) {
        if |a[1..]| < |b[1..]| && a[1..] == b[1..][..|a[1..]|] {
          assert b[..|a|] == [b[0]] + b[1..][..|a[1..]|];
          assert a == [a[0]] + a[1..];
          assert a == b[..|a|];
        } else {
          var k :| 0 <= k < |a[1..]| && k < |b[1..]| && a[1..][..k] == b[1..][..k] && a[1..][k] < b[1..][k];
          assert a[..k + 1] == [a[0]] + a[1..][..k];
          assert b[..k + 1] == [b[0]] + b[1..][..k];
        }
      }
      if LexicographicallyBefore(a, b) {
        if |a| < |b| && a == b[..|a|] {
          assert a[1..] == b[1..][..|a[1..]|];
        } else {
          var k :| 0 <= k < |a| && k < |b| && a[..k] == b[..k] && a[k] < b[k];
          assert k > 0;
          assert a[1..][..k - 1] == a[1..k] == b[1..k] == b[1..][..k - 1];
          assert a[1..][k - 1] < b[1..][k - 1];
        }
      }
    }
  }

  /** Ruby's string comparison is a strict total order: exactly one of
      `a < b`, `a == b`, `b < a` holds. */
  lemma {:induction false} LessTrichotomy(a: string, b: string)
    ensures Less(a, b) || a == b || Less(b, a)
    ensures !(Less(a, b) && Less(b, a))
    ensures !Less(a, a)
    decreases |a|
  {
    if a != [] && b != [] && a[0] == b[0] {
      LessTrichotomy(a[1..], b[1..]);
      LessTrichotomy(a[1..], a[1..]);
      if a[1..] == b[1..] {
        assert a == [a[0]] + a[1..] && b == [b[0]] + b[1..];
      }
    } else if a != [] {
      LessTrichotomy(a[1..], a[1..]);
    }
  }

  /** The per-component comparisons quoted for version parts: "3" sorts after
      "24" and "100" before it. */
  lemma StringOrderOfVersionParts()
    ensures AtLeast("3", "24")
    ensures !AtLeast("100", "24")
    ensures AtLeast("24", "24") && AtLeast("25", "24") && !AtLeast("0", "1")
  {
  }

  /** The fields of `s` between occurrences of `sep`, empty fields included
      (the behaviour of `split` before trailing empty fields are removed). */
  function Fields(s: string, sep: char): (r: seq<string>)
    ensures |r| >= 1
    ensures forall i :: 0 <= i < |r| ==> sep !in r[i]
    decreases |s|
  {
    if s == [] then [""]
    else
      var rest := Fields(s[1..], sep);
      if s[0] == sep then [""] + rest
      else [[s[0]] + rest[0]] + rest[1..]
  }

  /** `parts.join(sep)`. */
  function Join(parts: seq<string>, sep: char): string
    decreases |parts|
  {
    if parts == [] then ""
    else if |parts| == 1 then parts[0]
    else parts[0] + [sep] + Join(parts[1..], sep)
  }

  /** Joining the fields with the separator gives back the original string. */
  lemma {:induction false} JoinFields(s: string, sep: char)
    ensures Join(Fields(s, sep), sep) == s
    decreases |s|
  {
    if s != [] {
      var rest := Fields(s[1..], sep);
      JoinFields(s[1..], sep);
      if s[0] == sep {
        assert Fields(s, sep) == [""] + rest;
        assert ([""] + rest)[1..] == rest;
      } else {
        var r := Fields(s, sep);
        assert r == [[s[0]] + rest[0]] + rest[1..];
        if |rest| == 1 {
          assert s == [s[0]] + s[1..];
        } else {
          assert r[1..] == rest[1..];
          assert Join(rest, sep) == rest[0] + [sep] + Join(rest[1..], sep);
          assert s == [s[0]] + s[1..];
        }
      }
    }
  }

  /** Splitting a join of separator-free parts gives back the parts. */
  lemma {:induction false} FieldsJoin(parts: seq<string>, sep: char)
    requires |parts| >= 1
    requires forall i :: 0 <= i < |parts| ==> sep !in parts[i]
    ensures Fields(Join(parts, sep), sep) == parts
    decreases |parts|, |parts[0]|
  {
    var p := parts[0];
    if |parts| == 1 {
      if p != [] {
        FieldsJoin([p[1..]], sep);
        assert p == [p[0]] + p[1..];
      }
    } else if p == [] {
      FieldsJoin(parts[1..], sep);
      var s := Join(parts, sep);
      assert s == [sep] + Join(parts[1..], sep);
      assert s[1..] == Join(parts[1..], sep);
      assert parts == [""] + parts[1..];
    } else {
      var tail := [p[1..]] + parts[1..];
      FieldsJoin(tail, sep);
      var s := Join(parts, sep);
      assert tail[1..] == parts[1..];
      assert Join(tail, sep) == p[1..] + [sep] + Join(parts[1..], sep);
      assert s == [p[0]] + Join(tail, sep);
      assert s[1..] == Join(tail, sep);
      assert p == [p[0]] + p[1..];
      assert parts == [[p[0]] + tail[0]] + tail[1..];
    }
  }

  /** Removes the empty fields at the end, as Ruby's `split` does. */
  function DropTrailingEmpty(parts: seq<string>): (r: seq<string>)
    ensures |r| <= |parts| && r == parts[..|r|]
    ensures forall i :: |r| <= i < |parts| ==> parts[i] == ""
    ensures r == [] || r[|r| - 1] != ""
    decreases |parts|
  {
    if parts != [] && parts[|parts| - 1] == "" then DropTrailingEmpty(parts[..|parts| - 1])
    else parts
  }

  /** `s.split(sep)` for a one-character separator: the fields between
      separators, with trailing empty fields removed (so `"".split('.')` is
      empty and `"0.1.".split('.')` is `["0", "1"]`). */
  function Split(s: string, sep: char): (r: seq<string>)
    ensures forall i :: 0 <= i < |r| ==> sep !in r[i]
    ensures r == [] || r[|r| - 1] != ""
  {
    DropTrailingEmpty(Fields(s, sep))
  }

  /** What `Split` keeps and drops, stated against the round trip of
      `Fields`: the result is a prefix of the fields of `s`, every field after
      it is empty, and joining all the fields gives `s` back. */
  lemma SplitIsFieldsWithoutTrailingEmpty(s: string, sep: char)
    ensures var f := Fields(s, sep); var r := Split(s, sep);
      |r| <= |f| && r == f[..|r|] &&
      (forall i :: |r| <= i < |f| ==> f[i] == "") &&
      Join(f, sep) == s
  {
    JoinFields(s, sep);
  }

  /** Splitting a join of separator-free parts, the last one non-empty,
      gives back the parts. */
  lemma SplitJoin(parts: seq<string>, sep: char)
    requires |parts| >= 1 && parts[|parts| - 1] != ""
    requires forall i :: 0 <= i < |parts| ==> sep !in parts[i]
    ensures Split(Join(parts, sep), sep) == parts
  {
    FieldsJoin(parts, sep);
  }
}

=== FILE: supported_ssg.dfy ===
/** The catalogue of supported SCAP Security Guide (SSG) releases, built from
    the parsed `config/supported_ssg.yaml` document, which is passed in as a
    value instead of being loaded and cached. */
module SupportedSsg {
  import opened Wrappers
  import opened Yaml
  import opened RubyString

  /** The members of the `SupportedSsg` struct, in declaration order. */
  const Members: seq<string> :=
    ["id", "package", "version", "upstream_version", "profiles",
     "os_major_version", "os_minor_version"]

  /** `OLDEST_UPSTREAM_VERSION`. */
  const OldestUpstreamVersion: string := "0.1.24"

  /** One catalogue record. Struct members are untyped in Ruby, so each holds
      whatever YAML value ended up there (nil when not given). */
  datatype Ssg = Ssg(
    id: Value,
    package: Value,
    version: Value,
    upstreamVersion: Value,
    profiles: Value,
    osMajorVersion: Value,
    osMinorVersion: Value)

  /** The exceptions the Ruby code can raise on a malformed document. */
  datatype Error =
    | NoMethodError(name: string)  // a method called on a value that lacks it
    | ArgumentError                // wrong arity, or `String >= nil`

  // ---------------------------------------------------------------------
  // os_version: `rhel.scan(/(\d+)\.(\d+)$/)[0]`
  // ---------------------------------------------------------------------

  /** The end of the run of digits starting at `i`. */
  function DigitRunEnd(s: string, i: nat): (j: nat)
    requires i <= |s|
    ensures i <= j <= |s|
    ensures forall k :: i <= k < j ==> IsDigit(s[k])
    ensures j == |s| || !IsDigit(s[j])
    decreases |s| - i
  {
    if i == |s| || !IsDigit(s[i]) then i else DigitRunEnd(s, i + 1)
  }

  /** Ruby's `$`: the end of the string or of a line. */
  predicate AtLineEnd(s: string, j: nat)
    requires j <= |s|
  {
    j == |s| || s[j] == '\n'
  }

  /** The match of `(\d+)\.(\d+)$` starting exactly at `p`, with its two
      groups. Greedy matching is exact here: giving back a digit can never
      help, since what follows each group must be a non-digit. */
  function MatchAt(s: string, p: nat): Option<(string, string)>
    requires p <= |s|
  {
    var i := DigitRunEnd(s, p);
    if i == p || i == |s| || s[i] != '.' then None
    else
      var j := DigitRunEnd(s, i + 1);
      if j == i + 1 || !AtLineEnd(s, j) then None
      else Some((s[p..i], s[i + 1..j]))
  }

  /** The leftmost match at or after `p`: the first element of `scan`. */
  function FirstMatch(s: string, p: nat): (r: Option<(string, string)>)
    requires p <= |s|
    ensures r.None? ==> forall q :: p <= q <= |s| ==> MatchAt(s, q).None?
    ensures r.Some? ==>
      exists q :: p <= q <= |s| && MatchAt(s, q) == r &&
        forall q' :: p <= q' < q ==> MatchAt(s, q').None?
    decreases |s| - p
  {
    if MatchAt(s, p).Some? then MatchAt(s, p)
    else if p == |s| then None
    else FirstMatch(s, p + 1)
  }

  /** `os_version(rhel)`: the two groups of the first match, or nil and nil
      when there is none (`nil[0]` destructured into two variables). */
  function OsVersion(rhel: string): (Value, Value)
  {
    match FirstMatch(rhel, 0)
    case Some((major, minor)) => (Str(major), Str(minor))
    case None => (Null, Null)
  }

  /** `s` ends with `major.minor`, both non-empty digit runs, and the digit
      run before the dot is maximal. */
  predicate EndsInVersion(s: string, major: string, minor: string)
  {
    var p := |s| - |major| - 1 - |minor|;
    && |major| > 0 && |minor| > 0 && AllDigits(major) && AllDigits(minor)
    && p >= 0
    && s[p..p + |major|] == major && s[p + |major|] == '.' && s[p + |major| + 1..] == minor
    && (p == 0 || !IsDigit(s[p - 1]))
  }

  /** `DigitRunEnd` is determined by where the digits stop. */
  lemma DigitRunEndIs(s: string, i: nat, j: nat)
    requires i <= j <= |s|
    requires forall k :: i <= k < j ==> IsDigit(s[k])
    requires j == |s| || !IsDigit(s[j])
    ensures DigitRunEnd(s, i) == j
  {
  }

  /** Without line breaks a match runs to the end of the string, so it is
      the `digits.digits` suffix, maximal exactly when no digit precedes it. */
  lemma MatchAtShape(s: string, q: nat, major: string, minor: string)
    requires q <= |s| && '\n' !in s
    requires MatchAt(s, q) == Some((major, minor))
    ensures q == |s| - |major| - 1 - |minor|
    ensures EndsInVersion(s, major, minor) <==> (q == 0 || !IsDigit(s[q - 1]))
  {
  }

  /** A match starting right after a digit would extend one place left. */
  lemma MatchExtendsLeft(s: string, q: nat)
    requires 0 < q <= |s| && IsDigit(s[q - 1])
    requires MatchAt(s, q).Some?
    ensures MatchAt(s, q - 1).Some?
  {
    assert DigitRunEnd(s, q - 1) == DigitRunEnd(s, q);
  }

  /** The text before a `digits.digits` suffix cannot start a match. */
  lemma NoMatchBefore(s: string, major: string, minor: string, q: nat)
    requires '\n' !in s && EndsInVersion(s, major, minor)
    requires q < |s| - |major| - 1 - |minor|
    ensures MatchAt(s, q).None?
  {
    var p := |s| - |major| - 1 - |minor|;
    var i := DigitRunEnd(s, q);
    assert !IsDigit(s[p - 1]);
    assert s[p] == major[0];
    assert i < p;
    if i < |s| && s[i] == '.' {
      var j := DigitRunEnd(s, i + 1);
      assert s[p + |major|] == '.';
      assert j <= p + |major|;
      assert s[j] in s;
    }
  }

  lemma MatchAtVersionSuffix(s: string, major: string, minor: string)
    requires EndsInVersion(s, major, minor)
    ensures MatchAt(s, |s| - |major| - 1 - |minor|) == Some((major, minor))
  {
    var p := |s| - |major| - 1 - |minor|;
    var i := p + |major|;
    assert forall k :: p <= k < i ==> s[k] == major[k - p];
    DigitRunEndIs(s, p, i);
    assert forall k :: i + 1 <= k < |s| ==> s[k] == minor[k - i - 1];
    DigitRunEndIs(s, i + 1, |s|);
    assert s[p..i] == major;
    assert s[i + 1..|s|] == minor;
  }

  lemma {:induction false} FirstDigitPairIsFinal(s: string)
    requires '\n' !in s
    requires FirstMatch(s, 0).Some?
    ensures EndsInVersion(s, FirstMatch(s, 0).value.0, FirstMatch(s, 0).value.1)
  {
    var q :| 0 <= q <= |s| && MatchAt(s, q) == FirstMatch(s, 0) &&
      forall q' :: 0 <= q' < q ==> MatchAt(s, q').None?;
    var (major, minor) := FirstMatch(s, 0).value;
    MatchAtShape(s, q, major, minor);
    if q > 0 && IsDigit(s[q - 1]) {
      MatchExtendsLeft(s, q);
      assert false;
    }
  }

  lemma {:induction false} FinalDigitPairIsFirst(s: string, major: string, minor: string)
    requires '\n' !in s && EndsInVersion(s, major, minor)
    ensures FirstMatch(s, 0) == Some((major, minor))
  {
    var p := |s| - |major| - 1 - |minor|;
    MatchAtVersionSuffix(s, major, minor);
    assert FirstMatch(s, 0).Some?;
    var q :| 0 <= q <= |s| && MatchAt(s, q) == FirstMatch(s, 0) &&
      forall q' :: 0 <= q' < q ==> MatchAt(s, q').None?;
    if q < p {
      NoMatchBefore(s, major, minor, q);
      assert false;
    }
    assert q == p;
  }

  /** For a key without line breaks (all real ones), `os_version` returns the
      digit runs on either side of the final dot exactly when the key ends in
      `digits.digits`. */
  lemma OsVersionIsFinalDigitPair(s: string, major: string, minor: string)
    requires '\n' !in s
    ensures OsVersion(s) == (Str(major), Str(minor)) <==> EndsInVersion(s, major, minor)
  {
    if OsVersion(s) == (Str(major), Str(minor)) {
      FirstDigitPairIsFinal(s);
    }
    if EndsInVersion(s, major, minor) {
      FinalDigitPairIsFirst(s, major, minor);
    }
  }

  /** Both OS version parts are nil exactly when the key does not end in
      `digits.digits`. */
  lemma OsVersionNilUnlessFinalDigitPair(s: string)
    requires '\n' !in s
    ensures OsVersion(s) == (Null, Null) <==>
      forall major, minor :: !EndsInVersion(s, major, minor)
  {
    if FirstMatch(s, 0).Some? {
      FirstDigitPairIsFinal(s);
    } else {
      forall major, minor ensures !EndsInVersion(s, major, minor) {
        if EndsInVersion(s, major, minor) {
          FinalDigitPairIsFirst(s, major, minor);
        }
      }
    }
  }

  lemma OsVersionOfVersionedKey()
    ensures OsVersion("rhel7.10") == (Str("7"), Str("10"))
  {
    var key := "rhel7.10";
    assert key[4..5] == "7" && key[4] == '7' && key[5] == '.' && key[6..] == "10" && key[3] == 'l';
    assert EndsInVersion(key, "7", "10");
    FinalDigitPairIsFirst(key, "7", "10");
  }

  lemma OsVersionOfBareKey()
    ensures OsVersion("rhel8") == (Null, Null)
  {
    var bare := "rhel8";
    assert '.' !in bare && '\n' !in bare;
    OsVersionNilUnlessFinalDigitPair(bare);
  }

  // ---------------------------------------------------------------------
  // map_attributes: `values.slice(*members.map(&:to_s)).symbolize_keys`
  // ---------------------------------------------------------------------

  /** `Hash#slice(*keys)`: the entries of `values` whose key is one of `keys`. */
  function Slice(values: seq<(string, Value)>, keys: seq<string>): (attrs: map<string, Value>)
    ensures forall k :: k in attrs <==> k in keys && HasKey(values, k)
    ensures forall k :: k in attrs ==> attrs[k] == Lookup(values, k)
    decreases |keys|
  {
    if keys == [] then map[]
    else
      var rest := Slice(values, keys[1..]);
      if HasKey(values, keys[0]) then rest[keys[0] := Lookup(values, keys[0])] else rest
  }

  /** The attributes of one YAML entry that are struct members. */
  function MapAttributes(values: seq<(string, Value)>): (attrs: map<string, Value>)
    ensures forall k :: k in attrs <==> k in Members && HasKey(values, k)
    ensures forall k :: k in attrs ==> attrs[k] == Lookup(values, k)
  {
    Slice(values, Members)
  }

  /** The keyword argument `name`: the entry's attribute when it has one
      (the `**` splat comes last in the call, so it wins), else `default`. */
  function Field(attrs: map<string, Value>, name: string, default: Value): Value
  {
    if name in attrs then attrs[name] else default
  }

  /** `new(id: rhel, os_major_version: major, os_minor_version: minor,
      **map_attributes(values))`. */
  function NewSsg(key: string, values: seq<(string, Value)>): Ssg
  {
    var (major, minor) := OsVersion(key);
    var attrs := MapAttributes(values);
    Ssg(
      id := Field(attrs, "id", Str(key)),
      package := Field(attrs, "package", Null),
      version := Field(attrs, "version", Null),
      upstreamVersion := Field(attrs, "upstream_version", Null),
      profiles := Field(attrs, "profiles", Null),
      osMajorVersion := Field(attrs, "os_major_version", major),
      osMinorVersion := Field(attrs, "os_minor_version", minor))
  }

  /** A record's id is the entry's key and its OS version comes from the key,
      unless the entry itself sets those members; every other member is the
      entry's attribute of that name, nil when absent. */
  lemma MemberField(values: seq<(string, Value)>, i: nat, default: Value)
    requires i < |Members|
    ensures Field(MapAttributes(values), Members[i], default) ==
      if HasKey(values, Members[i]) then Lookup(values, Members[i]) else default
  {
  }

  lemma NewSsgFields(key: string, values: seq<(string, Value)>)
    ensures NewSsg(key, values).id ==
      if HasKey(values, "id") then Lookup(values, "id") else Str(key)
    ensures NewSsg(key, values).osMajorVersion ==
      if HasKey(values, "os_major_version") then Lookup(values, "os_major_version") else OsVersion(key).0
    ensures NewSsg(key, values).osMinorVersion ==
      if HasKey(values, "os_minor_version") then Lookup(values, "os_minor_version") else OsVersion(key).1
    ensures NewSsg(key, values).package == Lookup(values, "package")
    ensures NewSsg(key, values).version == Lookup(values, "version")
    ensures NewSsg(key, values).upstreamVersion == Lookup(values, "upstream_version")
    ensures NewSsg(key, values).profiles == Lookup(values, "profiles")
  {
    var (major, minor) := OsVersion(key);
    MemberField(values, 0, Str(key));
    MemberField(values, 1, Null);
    MemberField(values, 2, Null);
    MemberField(values, 3, Null);
    MemberField(values, 4, Null);
    MemberField(values, 5, major);
    MemberField(values, 6, minor);
  }

  /** Keys that are not struct members are dropped: two entries that agree on
      every member key build the same record. */
  lemma {:induction false} OnlyMemberKeysMatter(key: string, v1: seq<(string, Value)>, v2: seq<(string, Value)>)
    requires forall k :: k in Members ==> HasKey(v1, k) == HasKey(v2, k) && Lookup(v1, k) == Lookup(v2, k)
    ensures NewSsg(key, v1) == NewSsg(key, v2)
  {
    var a1, a2 := MapAttributes(v1), MapAttributes(v2);
    assert a1.Keys == a2.Keys;
    assert a1 == a2;
  }

  // ---------------------------------------------------------------------
  // all
  // ---------------------------------------------------------------------

  /** The block parameters `|rhel, values|` for one element of an Array:
      an Array element is splatted, anything else binds `rhel` alone. */
  function Destructure(e: Value): (Value, Value)
  {
    match e
    case List(items) => (if |items| > 0 then items[0] else Null, if |items| > 1 then items[1] else Null)
    case _ => (e, Null)
  }

  /** What `raw_supported['supported'].map` iterates over. */
  function SupportedEntries(raw: seq<(string, Value)>): Result<seq<(Value, Value)>, Error>
  {
    match Lookup(raw, "supported")
    case Mapping(entries) =>
      Ok(seq(|entries|, i requires 0 <= i < |entries| => (Str(entries[i].0), entries[i].1)))
    case List(items) =>
      Ok(seq(|items|, i requires 0 <= i < |items| => Destructure(items[i])))
    case _ => Err(NoMethodError("map"))
  }

  /** The block of `all` for one entry. `rhel.scan` needs a String; `slice`
      with seven arguments needs a Hash (String and Array reject the arity). */
  function MakeRecord(rhel: Value, values: Value): Result<Ssg, Error>
  {
    if !rhel.Str? then Err(NoMethodError("scan"))
    else match values
      case Mapping(entries) => Ok(NewSsg(rhel.s, entries))
      case Str(_) => Err(ArgumentError)
      case List(_) => Err(ArgumentError)
      case _ => Err(NoMethodError("slice"))
  }

  /** `map` over the entries: one record per entry, in order, or the
      exception raised by the first entry that fails. */
  function BuildAll(entries: seq<(Value, Value)>): (r: Result<seq<Ssg>, Error>)
    ensures r.Ok? <==> forall i :: 0 <= i < |entries| ==> MakeRecord(entries[i].0, entries[i].1).Ok?
    ensures r.Ok? ==>
      && |r.value| == |entries|
      && forall i :: 0 <= i < |entries| ==> MakeRecord(entries[i].0, entries[i].1) == Ok(r.value[i])
    ensures r.Err? ==>
      exists i :: 0 <= i < |entries| && MakeRecord(entries[i].0, entries[i].1) == Err(r.error) &&
        forall j :: 0 <= j < i ==> MakeRecord(entries[j].0, entries[j].1).Ok?
    decreases |entries|
  {
    if entries == [] then Ok([])
    else
      match MakeRecord(entries[0].0, entries[0].1)
      case Err(e) => Err(e)
      case Ok(head) =>
        match BuildAll(entries[1..])
        case Err(e) =>
          assert forall i :: 1 <= i < |entries| ==> entries[i] == entries[1..][i - 1];
          Err(e)
        case Ok(tail) =>
          assert forall i :: 1 <= i < |entries| ==> entries[i] == entries[1..][i - 1];
          Ok([head] + tail)
  }

  /** `SupportedSsg.all` on the parsed document. */
  function All(raw: seq<(string, Value)>): Result<seq<Ssg>, Error>
  {
    var entries :- SupportedEntries(raw);
    BuildAll(entries)
  }

  /** A document whose `supported` entry is missing or is neither a Hash nor
      an Array makes `all` raise `NoMethodError` for `map`. */
  lemma AllRejectsUnmappableSupported(raw: seq<(string, Value)>)
    requires !Lookup(raw, "supported").Mapping? && !Lookup(raw, "supported").List?
    ensures All(raw) == Err(NoMethodError("map"))
  {
  }

  /** In a Hash `supported`, the first entry whose value is not a Hash makes
      `all` raise: `ArgumentError` for a String or an Array (whose `slice`
      rejects seven arguments), `NoMethodError` for `slice` otherwise. */
  lemma AllRejectsFirstNonHashEntry(raw: seq<(string, Value)>, entries: seq<(string, Value)>, i: nat)
    requires Lookup(raw, "supported") == Mapping(entries)
    requires i < |entries| && !entries[i].1.Mapping?
    requires forall j :: 0 <= j < i ==> entries[j].1.Mapping?
    ensures All(raw) == Err(if entries[i].1.Str? || entries[i].1.List? then ArgumentError else NoMethodError("slice"))
  {
    var pairs := SupportedEntries(raw).value;
    assert forall j :: 0 <= j < |entries| ==> pairs[j] == (Str(entries[j].0), entries[j].1);
    assert MakeRecord(pairs[i].0, pairs[i].1).Err?;
    var r := BuildAll(pairs);
    assert r.Err?;
    var k :| 0 <= k < |pairs| && MakeRecord(pairs[k].0, pairs[k].1) == Err(r.error) &&
      forall j :: 0 <= j < k ==> MakeRecord(pairs[j].0, pairs[j].1).Ok?;
    assert k == i;
  }

  /** For the usual document, where `supported` is a Hash: `all` succeeds
      exactly when every entry's value is a Hash, and then returns one record
      per entry, in the Hash's order, built from that entry. */
  lemma AllFollowsSupportedMap(raw: seq<(string, Value)>, entries: seq<(string, Value)>)
    requires Lookup(raw, "supported") == Mapping(entries)
    ensures All(raw).Ok? <==> forall i :: 0 <= i < |entries| ==> entries[i].1.Mapping?
    ensures All(raw).Ok? ==>
      |All(raw).value| == |entries| &&
      forall i :: 0 <= i < |entries| ==> All(raw).value[i] == NewSsg(entries[i].0, entries[i].1.entries)
  {
    var pairs := SupportedEntries(raw).value;
    assert All(raw) == BuildAll(pairs);
    forall i | 0 <= i < |entries|
      ensures MakeRecord(pairs[i].0, pairs[i].1).Ok? <==> entries[i].1.Mapping?
      ensures entries[i].1.Mapping? ==>
        MakeRecord(pairs[i].0, pairs[i].1) == Ok(NewSsg(entries[i].0, entries[i].1.entries))
    {
      assert pairs[i] == (Str(entries[i].0), entries[i].1);
    }
  }

  /** The record id is the entry's key whenever the entry does not set `id`. */
  lemma AllIdsAreKeys(raw: seq<(string, Value)>, entries: seq<(string, Value)>, i: nat)
    requires Lookup(raw, "supported") == Mapping(entries)
    requires All(raw).Ok? && i < |entries| && entries[i].1.Mapping?
    requires !HasKey(entries[i].1.entries, "id")
    ensures All(raw).value[i].id == Str(entries[i].0)
  {
    AllFollowsSupportedMap(raw, entries);
    var (key, values) := (entries[i].0, entries[i].1.entries);
    assert All(raw).value[i] == NewSsg(key, values);
    MemberField(values, 0, Str(key));
  }

  // ---------------------------------------------------------------------
  // available_upstream
  // ---------------------------------------------------------------------

  /** `ssg.upstream_version || ssg.version`. */
  function FilterVersion(ssg: Ssg): Value
  {
    if Truthy(ssg.upstreamVersion) then ssg.upstreamVersion else ssg.version
  }

  /** `parts.zip(oldest).all? { |v, o| v >= o }`: `zip` pads `oldest` with nil,
      `v >= nil` raises, and `all?` stops at the first false. */
  function PartsAtLeast(parts: seq<string>, oldest: seq<string>): (r: Result<bool, Error>)
    ensures r == Ok(true) <==>
      |parts| <= |oldest| && forall i :: 0 <= i < |parts| ==> AtLeast(parts[i], oldest[i])
    ensures r.Err? <==>
      |parts| > |oldest| && forall i :: 0 <= i < |oldest| ==> AtLeast(parts[i], oldest[i])
    ensures r.Err? ==> r.error == ArgumentError
    decreases |parts|
  {
    if parts == [] then Ok(true)
    else if oldest == [] then Err(ArgumentError)
    else if AtLeast(parts[0], oldest[0]) then
      assert forall i :: 1 <= i < |parts| ==> parts[i] == parts[1..][i - 1];
      assert forall i :: 1 <= i < |oldest| ==> oldest[i] == oldest[1..][i - 1];
      PartsAtLeast(parts[1..], oldest[1..])
    else Ok(false)
  }

  /** `'0.1.24'.split('.')`. */
  lemma OldestParts()
    ensures Split(OldestUpstreamVersion, '.') == ["0", "1", "24"]
  {
    assert Join(["0", "1", "24"], '.') == OldestUpstreamVersion;
    SplitJoin(["0", "1", "24"], '.');
  }

  /** The `select` block: keep an SSG when each part of its version, in
      position, is at least the matching part of `OLDEST_UPSTREAM_VERSION`.
      A version that is neither a String nor an Array (nil included) has no
      `split`; an Array does (Active Support's `Array#split`), but its parts
      are Arrays, which have no `>=`. */
  function Keep(ssg: Ssg): Result<bool, Error>
  {
    var v := FilterVersion(ssg);
    match v
    case Str(text) => PartsAtLeast(Split(text, '.'), Split(OldestUpstreamVersion, '.'))
    case List(_) => Err(NoMethodError(">="))
    case _ => Err(NoMethodError("split"))
  }

  /** The filter rule spelled out against `0.1.24`: kept exactly when the
      version has at most three parts and each is at least "0", "1", "24"
      respectively as a string; an error exactly when it has more than three
      parts and the first three pass. */
  lemma KeepAgainstOldest(ssg: Ssg)
    requires FilterVersion(ssg).Str?
    ensures var parts := Split(FilterVersion(ssg).s, '.');
      && (Keep(ssg) == Ok(true) <==>
           |parts| <= 3 && forall i :: 0 <= i < |parts| ==> AtLeast(parts[i], ["0", "1", "24"][i]))
      && (Keep(ssg).Err? <==>
           |parts| > 3 && AtLeast(parts[0], "0") && AtLeast(parts[1], "1") && AtLeast(parts[2], "24"))
  {
    OldestParts();
  }

  /** `upstream_version`, when set, decides alone: `version` is not read. */
  lemma UpstreamVersionTakesPrecedence(ssg: Ssg, version: Value)
    requires Truthy(ssg.upstreamVersion)
    ensures Keep(ssg.(version := version)) == Keep(ssg)
    ensures FilterVersion(ssg) == ssg.upstreamVersion
  {
  }

  /** Without an `upstream_version`, the filter reads `version`. */
  lemma VersionUsedWithoutUpstream(ssg: Ssg)
    requires !Truthy(ssg.upstreamVersion)
    ensures FilterVersion(ssg) == ssg.version
  {
  }

  /** Whether the filter keeps, drops or fails on a record whose
      (upstream) version is the string `v`. */
  function KeepVersion(v: string): Result<bool, Error>
  {
    Keep(Ssg(Null, Null, Str(v), Null, Null, Null, Null))
  }

  lemma KeepVersionOfParts(parts: seq<string>)
    requires |parts| >= 1 && parts[|parts| - 1] != ""
    requires forall i :: 0 <= i < |parts| ==> '.' !in parts[i]
    ensures KeepVersion(Join(parts, '.')) == PartsAtLeast(parts, ["0", "1", "24"])
  {
    OldestParts();
    SplitJoin(parts, '.');
  }

  /** The bound itself is kept. */
  lemma KeepsOldestUpstreamVersion()
    ensures KeepVersion("0.1.24") == Ok(true)
  {
    StringOrderOfVersionParts();
    assert Join(["0", "1", "24"], '.') == "0.1.24";
    KeepVersionOfParts(["0", "1", "24"]);
  }

  /** `0.1.3` is kept: "3" >= "24" as strings. */
  lemma KeepsShortPatchAsString()
    ensures KeepVersion("0.1.3") == Ok(true)
  {
    StringOrderOfVersionParts();
    assert Join(["0", "1", "3"], '.') == "0.1.3";
    KeepVersionOfParts(["0", "1", "3"]);
  }

  /** `0.2` is kept: only two parts are compared. */
  lemma KeepsTwoPartVersion()
    ensures KeepVersion("0.2") == Ok(true)
  {
    StringOrderOfVersionParts();
    assert Join(["0", "2"], '.') == "0.2";
    KeepVersionOfParts(["0", "2"]);
  }

  /** `1.0.0` is dropped: "0" < "1" in the second part, whatever the first. */
  lemma DropsNewerMajorVersion()
    ensures KeepVersion("1.0.0") == Ok(false)
  {
    StringOrderOfVersionParts();
    assert Join(["1", "0", "0"], '.') == "1.0.0";
    KeepVersionOfParts(["1", "0", "0"]);
  }

  /** `0.1.100` is dropped: "100" < "24" as strings. */
  lemma DropsLongPatchAsString()
    ensures KeepVersion("0.1.100") == Ok(false)
  {
    StringOrderOfVersionParts();
    assert Join(["0", "1", "100"], '.') == "0.1.100";
    KeepVersionOfParts(["0", "1", "100"]);
  }

  /** `0.0.1.5` is dropped without error: `all?` stops at the second part, before the fourth would be compared with nil. */
  lemma DropsBeforeComparingWithNil()
    ensures KeepVersion("0.0.1.5") == Ok(false)
  {
    StringOrderOfVersionParts();
    assert Join(["0", "0", "1", "5"], '.') == "0.0.1.5";
    KeepVersionOfParts(["0", "0", "1", "5"]);
  }

  /** A four-part version whose first three parts pass compares its fourth
      part with nil and raises. */
  lemma FilterRaisesOnFourthPart()
    ensures KeepVersion("0.1.24.1") == Err(ArgumentError)
  {
    StringOrderOfVersionParts();
    assert Join(["0", "1", "24", "1"], '.') == "0.1.24.1";
    KeepVersionOfParts(["0", "1", "24", "1"]);
  }

  /** `r` is `s` with some elements removed, the rest in their order. */
  predicate IsSubsequence(r: seq<Ssg>, s: seq<Ssg>)
    decreases |s|
  {
    if s == [] then r == []
    else (r != [] && r[0] == s[0] && IsSubsequence(r[1..], s[1..])) || IsSubsequence(r, s[1..])
  }

  /** `ssgs.select(&keep)`: the kept records in order, or the exception of
      the first record whose block raises. */
  function Select(ssgs: seq<Ssg>, keep: Ssg -> Result<bool, Error>): (r: Result<seq<Ssg>, Error>)
    ensures r.Ok? <==> forall i :: 0 <= i < |ssgs| ==> keep(ssgs[i]).Ok?
    ensures r.Ok? ==> IsSubsequence(r.value, ssgs)
    ensures r.Ok? ==> forall x :: x in r.value <==> x in ssgs && keep(x) == Ok(true)
    ensures r.Ok? ==> forall x :: multiset(r.value)[x] == if keep(x) == Ok(true) then multiset(ssgs)[x] else 0
    ensures r.Err? ==>
      exists i :: 0 <= i < |ssgs| && keep(ssgs[i]) == Err(r.error) &&
        forall j :: 0 <= j < i ==> keep(ssgs[j]).Ok?
    decreases |ssgs|
  {
    if ssgs == [] then Ok([])
    else
      assert forall i :: 1 <= i < |ssgs| ==> ssgs[i] == ssgs[1..][i - 1];
      assert ssgs == [ssgs[0]] + ssgs[1..];
      match keep(ssgs[0])
      case Err(e) => Err(e)
      case Ok(kept) =>
        match Select(ssgs[1..], keep)
        case Err(e) => Err(e)
        case Ok(rest) =>
          if kept then
            assert ([ssgs[0]] + rest)[1..] == rest;
            Ok([ssgs[0]] + rest)
          else Ok(rest)
  }

  /** `SupportedSsg.available_upstream`. */
  function AvailableUpstream(raw: seq<(string, Value)>): Result<seq<Ssg>, Error>
  {
    var all :- All(raw);
    Select(all, Keep)
  }

  /** `available_upstream` is the subsequence of `all` that the filter keeps,
      and it fails exactly when `all` fails or the filter raises on one of
      its records. */
  lemma AvailableUpstreamIsSelectedAll(raw: seq<(string, Value)>)
    ensures AvailableUpstream(raw).Ok? ==>
      && All(raw).Ok?
      && IsSubsequence(AvailableUpstream(raw).value, All(raw).value)
      && (forall x :: x in AvailableUpstream(raw).value <==> x in All(raw).value && Keep(x) == Ok(true))
      && (forall x :: multiset(AvailableUpstream(raw).value)[x] ==
            if Keep(x) == Ok(true) then multiset(All(raw).value)[x] else 0)
    ensures AvailableUpstream(raw).Err? <==>
      All(raw).Err? || exists i :: 0 <= i < |All(raw).value| && Keep(All(raw).value[i]).Err?
  {
  }

  // ---------------------------------------------------------------------
  // supports?
  // ---------------------------------------------------------------------

  /** The argument of `supports?`: an object that answers `version`, or a
      bare value (a version string, typically) that does not. */
  datatype Query = Versioned(version: Value) | Bare(value: Value)

  /** `obj.try(:version) || obj`: the version it is looked up by. `None`
      stands for the object itself (its version being nil or false), which
      equals no value from the YAML document. */
  function QueryVersion(q: Query): Option<Value>
  {
    match q
    case Versioned(v) => if Truthy(v) then Some(v) else None
    case Bare(v) => Some(v)
  }

  /** `ssgs.map(&:version).include?(v)`. */
  function IncludesVersion(ssgs: seq<Ssg>, v: Value): (r: bool)
    ensures r <==> exists i :: 0 <= i < |ssgs| && ssgs[i].version == v
    decreases |ssgs|
  {
    if ssgs == [] then false
    else
      assert forall i :: 1 <= i < |ssgs| ==> ssgs[i] == ssgs[1..][i - 1];
      ssgs[0].version == v || IncludesVersion(ssgs[1..], v)
  }

  /** `SupportedSsg.supports?(obj)`. */
  function Supports(raw: seq<(string, Value)>, q: Query): Result<bool, Error>
  {
    var all :- All(raw);
    match QueryVersion(q)
    case None => Ok(false)
    case Some(v) => Ok(IncludesVersion(all, v))
  }

  /** `supports?` holds exactly when the query's version, or the bare value,
      is the `version` of some record of `all`; `upstream_version` is not
      consulted. It fails exactly when `all` does. */
  lemma SupportsIffSomeVersion(raw: seq<(string, Value)>, q: Query)
    ensures Supports(raw, q).Err? <==> All(raw).Err?
    ensures Supports(raw, q).Ok? ==>
      (Supports(raw, q).value <==>
        exists i :: 0 <= i < |All(raw).value| && QueryVersion(q) == Some(All(raw).value[i].version))
  {
  }

  // ---------------------------------------------------------------------
  // revision
  // ---------------------------------------------------------------------

  /** `SupportedSsg.revision`: the document's `revision`, nil when absent. */
  function Revision(raw: seq<(string, Value)>): (r: Value)
    ensures !HasKey(raw, "revision") ==> r == Null
    ensures HasKey(raw, "revision") ==> exists i :: 0 <= i < |raw| && raw[i] == ("revision", r)
  {
    Lookup(raw, "revision")
  }
}

=== FILE: wrappers.dfy ===
/** Option, Result and Outcome: the failure-compatible types the model uses
    in place of Ruby's nil and raised exceptions. */
module Wrappers {

  datatype Option<+T> = None | Some(value: T)

  datatype Result<+R, +E> = Ok(value: R) | Err(error: E) {
    predicate IsFailure() { Err? }

    function PropagateFailure<U>(): Result<U, E>
      requires Err?
    {
      Err(error)
    }

    function Extract(): R
      requires Ok?
    {
      value
    }
  }

  datatype Outcome<+E> = Pass | Fail(error: E)
}

=== FILE: yaml.dfy ===
/** The parsed form of the supported-SSG YAML document, as Ruby sees it after
    `YAML.load_file`: nil, booleans, integers, strings, arrays and hashes.
    A hash is an ordered sequence of (key, value) pairs, since Ruby hashes
    iterate in insertion order. */
module Yaml {

  datatype Value =
    | Null
    | Bool(b: bool)
    | Int(i: int)
    | Str(s: string)
    | List(items: seq<Value>)
    | Mapping(entries: seq<(string, Value)>)

  /** Ruby truthiness: only nil and false are falsy. */
  predicate Truthy(v: Value)
  {
    !v.Null? && v != Bool(false)
  }

  predicate HasKey(entries: seq<(string, Value)>, key: string)
  {
    exists i :: 0 <= i < |entries| && entries[i].0 == key
  }

  /** `hash[key]`: the value stored under `key`, or nil when the key is absent. */
  function Lookup(entries: seq<(string, Value)>, key: string): (r: Value)
    ensures !HasKey(entries, key) ==> r == Null
    ensures HasKey(entries, key) ==>
      exists i :: 0 <= i < |entries| && entries[i] == (key, r) &&
        forall j :: 0 <= j < i ==> entries[j].0 != key
    decreases |entries|
  {
    if entries == [] then Null
    else if entries[0].0 == key then entries[0].1
    else
      assert forall i :: 0 < i < |entries| ==> entries[i] == entries[1..][i - 1];
      Lookup(entries[1..], key)
  }
}
